=== FILE: README.md ===
# Mandir Jumper — a Dafny model of the per-frame game logic

Mandir Jumper is a one-screen arcade game. The player climbs automatically up
one of two walls and jumps from wall to wall. Crows and spinning khukuris fall
from above and bounce between the walls. Power-ups can be collected: a cup of
chiyaa gives a speed boost and a prayer wheel gives invincibility. The score
grows with time and the session keeps a high score.

This project models the game's per-frame logic as pure functions over
immutable state:

- `Geometry`: the screen constants and the rectangle-overlap test.
- `Players`: the player's timed effects (speed boost 300 frames, invincibility
  180 frames), automatic climbing, and the 20-frame parabolic jump.
- `Enemies`: the enemy step (sideways drift, fall, wall bounce, khukuri spin)
  and the bounce invariant it keeps.
- `PowerUps`: the power-up step (bob phase) and its bobbing collision box.
- `Game`: the session state, one frame of the game, spawning (random draws
  passed in as a `Draws` record), restart, and input dispatch.
- `Session`: the invariant every reachable state keeps, and properties over
  many frames. These include the main loop (events, then one frame) and the
  opening frames of a fresh game.

Coordinates are Dafny `real`s. The jump's x and height are defined frame by
frame, as the sum of per-frame steps. `Players.LerpClosedForm` and
`Players.ArcClosedForm` prove that these sums equal the source's formulas:
linear interpolation for x, and the parabola `60 * 4 * t * (1 - t)` with
`t = k / 20` for the height.

The power-up timer is reset only after it exceeds 600, so power-ups come
every 601 frames, not every 600 (`Session.PowerUpSpawnFrames`).

## Model

| member | source | states |
|---|---|---|
| Players.CountdownExact | mandir_jumper.py:46-54 | an effect with t >= 1 frames left is on with t - k left for k < t frames and is off with timer 0 from the t-th frame on |
| Players.IdleEffectUntouched | mandir_jumper.py:46-54 | while an effect is off, its flag and timer are never changed |
| Players.ActivateSpeedBoost | mandir_jumper.py:90-92 | the boost is on with exactly 300 frames, whatever was left; nothing else changes |
| Players.ActivateInvincibility | mandir_jumper.py:94-96 | invincibility is on with exactly 180 frames, whatever was left; nothing else changes |
| Players.UpdateTicksEffects | mandir_jumper.py:45-54 | every frame decays both effects, and that is all that happens to them |
| Players.UpdatesTickEffects | mandir_jumper.py:45-54 | over k frames each effect evolves by its own countdown alone |
| Players.SpeedBoostLasts | mandir_jumper.py:46-49 | k frames after activation the boost is on with 300 - k left for k < 300, and off from the 300th frame on |
| Players.InvincibilityLasts | mandir_jumper.py:51-54 | k frames after activation invincibility is on with 180 - k left for k < 180, and off from the 180th frame on |
| Players.UpdateClimbs | mandir_jumper.py:56-59 | a player not jumping keeps x and wall and moves up 2 units, or 4 if the boost is still on after this frame's decay |
| Players.UpdateLands | mandir_jumper.py:62-71 | on the 20th jump frame the player lands exactly at the target x and the take-off y, on the other wall, with the jump cleared |
| Players.UpdateInFlight | mandir_jumper.py:62-76 | before the 20th frame a jump advances one frame: x between take-off and target, y at most 60 above take-off, endpoints kept |
| Players.LerpClosedForm | mandir_jumper.py:72-74 | the x reached after k jump frames is the linear interpolation start + (target - start) * k / 20 |
| Players.ArcClosedForm | mandir_jumper.py:75-76 | the height reached after k jump frames is 60 * 4 * t * (1 - t) with t = k / 20 |
| Players.ArcOffsetBounds | mandir_jumper.py:75-76 | the arc height stays between 0 and 60 and is 0 at take-off and at landing |
| Players.LerpBetween | mandir_jumper.py:72-74 | the interpolated x lies between the start and the target |
| Players.Jump | mandir_jumper.py:78-88 | no change while jumping; otherwise records the start, progress 0, target 290 from the left wall or 80 from the right |
| Players.NewIsValid | mandir_jumper.py:26-42 | the player the game starts with satisfies the player invariant |
| Players.ValidUnderUpdate | mandir_jumper.py:44-76 | a frame keeps the player invariant: valid effects, on a wall or on the arc towards the other wall |
| Players.ValidUnderJump | mandir_jumper.py:78-88 | starting a jump keeps the player invariant |
| Players.ValidUnderActivation | mandir_jumper.py:90-96 | activating either effect keeps the player invariant |
| Players.ValidBetweenWalls | mandir_jumper.py:62-88 | a valid player's x is always between 80 and 290 |
| Players.JumpInFlight | mandir_jumper.py:62-76 | k < 20 frames after take-off the player is jumping at progress k, on the arc point for k |
| Players.JumpArc | mandir_jumper.py:72-76 | during frames 1 to 19 of a jump x lies between start and target and y at most 60 above the take-off y |
| Players.JumpLands | mandir_jumper.py:62-71 | exactly 20 frames after a jump starts the player is at 290 (from the left wall) or 80 (from the right), at the take-off y, on the other wall |
| Enemies.Update | mandir_jumper.py:159-172 | moves by speed in its direction and falls by its fall speed; turns round exactly when the new x is at or past a wall; a khukuri spins 5 degrees |
| Enemies.UpdateStaysInBounds | mandir_jumper.py:159-168 | the bounce invariant is kept: an enemy overshoots a wall by less than one step and is then heading inwards |
| Enemies.InBoundsNearWalls | mandir_jumper.py:166-168 | an enemy keeping the bounce invariant is never more than 3 units past a wall |
| PowerUps.Update | mandir_jumper.py:232-233 | only the bob phase moves, by 0.2 |
| PowerUps.UpdatesOnlyBob | mandir_jumper.py:232-233 | after n frames a power-up is where it was, its phase advanced by 0.2 * n |
| PowerUps.HitBoxNearBase | mandir_jumper.py:235-236 | with a sine bounded by 1 the collision box is at most 3 units above or below the base position |
| Game.Restart | mandir_jumper.py:310-319 | fresh player at (80, 600), empty lists, zero score, camera and timers, running, high score unchanged |
| Game.ScoreAtStep | mandir_jumper.py:333-336 | the closed-form score after t frames grows by one exactly on the frames where the code scores |
| Game.FirstPointAt66 | mandir_jumper.py:333-336 | no point before frame 66; the first point on frame 66 |
| Game.SpawnEnemy | mandir_jumper.py:281-285 | the new enemy is at x 100 to 280, 100 to 300 above the camera, unrotated, and keeps the bounce invariant |
| Game.SpawnPowerUp | mandir_jumper.py:287-291 | the new power-up is at x 100 to 280, 50 to 200 above the camera, at phase 0 |
| Game.SpawnRate | mandir_jumper.py:344 | the rate lies in [30, 90], is 30 exactly from score 3000 on, and drops by one per 50 points before that |
| Game.EnemySpawn | mandir_jumper.py:342-348 | idle up to frame 120; after it the timer advances, and an enemy is appended and the timer reset exactly when the old timer is at least the rate |
| Game.PowerUpSpawn | mandir_jumper.py:350-354 | the timer advances, and a power-up is appended and the timer reset exactly when the old timer is at least 600 |
| Game.StepAll | mandir_jumper.py:357-358 | every entity is stepped once, in order |
| Game.StepAllAppend | mandir_jumper.py:357-358 | stepping a list with one entity appended steps the old entities in order and then the new one |
| Game.Advance | mandir_jumper.py:356-366 | an entity survives exactly when it is a stepped entity no lower than the bound |
| Game.AdvanceCounts | mandir_jumper.py:356-366 | each stepped entity no lower than the bound is kept exactly as many times as it occurs after stepping; every lower one is dropped entirely (multiset) |
| Game.AdvanceSpawned | mandir_jumper.py:341-366 | after a spawner that may have appended one entity, the survivors of the pass are exactly the stepped old entities and the stepped new one, no lower than the bound |
| Game.EnemyPass | mandir_jumper.py:341-360 | the enemy timer is idle up to frame 120 and then advances, resetting to 0 exactly when the old timer is at least the rate; an enemy survives exactly when it is an old one or that spawn, stepped once, no lower than camera + 800 |
| Game.PowerUpPass | mandir_jumper.py:350-366 | the power-up timer advances, resetting to 0 exactly when the old timer is at least 600; a power-up survives exactly when it is an old one or that spawn, stepped once, no lower than camera + 800 |
| Game.EnemyHit | mandir_jumper.py:368-374 | the scan finds a hit exactly when some enemy's box overlaps the player's box |
| Game.Hits | mandir_jumper.py:376-384 | the power-ups collected are ones from the list that overlap the player's box |
| Game.Collect | mandir_jumper.py:376-384 | each overlapping power-up is removed exactly once (multiset) and its effect applied: boost iff a chiyaa overlapped, invincibility iff a prayer wheel did; the player does not move |
| Game.Advanced | mandir_jumper.py:325-366 | timer + 1, player stepped, camera = player y - 500, score + 1 exactly on scoring frames; the high score becomes the score exactly when a point lifts the score above it and is otherwise kept; the enemy timer is kept up to frame 120 and afterwards advances or resets to 0 exactly when the old timer is at least the rate; the power-up timer advances or resets to 0 exactly when it was at least 600; an enemy or power-up is present afterwards exactly when it is an old one or this frame's spawn, stepped once, and no lower than camera + 800 |
| Game.Collisions | mandir_jumper.py:368-384 | game over exactly when not invincible and an enemy overlaps, and then nothing else changes; otherwise a power-up stays exactly when it does not overlap, each overlapping one is removed once (multiset), and the boost or invincibility is re-armed exactly when a chiyaa or prayer wheel overlapped |
| Game.Update | mandir_jumper.py:321-384 | nothing changes after game over; otherwise timer, score and camera rules hold, the high score becomes the score exactly when a point lifts the score above it, both spawn timers follow the spawner rules, the enemies and power-ups afterwards are exactly the stepped, unpruned old ones and spawns (minus collected power-ups), game over exactly on an unblocked enemy overlap, and the collected power-ups' effects are applied |
| Game.Dispatch | mandir_jumper.py:297-307 | space or a click jumps while running; R or a click restarts after game over; space after game over, R while running and every other event change nothing |
| Game.HandleEvents | mandir_jumper.py:293-308 | the loop goes on exactly when no quit event came; the high score is never changed by input |
| Game.HandleEventsWhileRunning | mandir_jumper.py:293-308 | while running, the game stays running and the player jumps exactly when a space or a click comes before the first quit; otherwise nothing changes |
| Game.HandleEventsAfterGameOver | mandir_jumper.py:293-308 | after a game over, the game stays over and unchanged exactly when no R and no click comes before the first quit; otherwise it is restarted, its new player possibly jumping |
| Session.FreshInv | mandir_jumper.py:265-275 | a new session satisfies the session invariant |
| Session.RestartInv | mandir_jumper.py:310-319 | a restart yields a state satisfying the invariant with the high score kept |
| Session.CollectKeepsValid | mandir_jumper.py:376-384 | collecting power-ups keeps the player invariant |
| Session.AdvanceKeepsInBounds | mandir_jumper.py:356-360 | the enemy pass keeps every enemy within the bounce invariant |
| Session.SpawnKeepsInBounds | mandir_jumper.py:342-348 | the spawner only adds enemies that keep the bounce invariant |
| Session.AdvancedEnemiesInBounds | mandir_jumper.py:341-360 | spawn plus enemy pass keep the bounce invariant |
| Session.AdvancedInv | mandir_jumper.py:325-366 | the advancing part of a frame keeps the session invariant |
| Session.CollisionsInv | mandir_jumper.py:368-384 | the collision checks keep the session invariant |
| Session.UpdateInv | mandir_jumper.py:321-384 | every frame keeps the session invariant, in particular high score >= score and the score's closed form |
| Session.PowerUpSpawnFrames | mandir_jumper.py:350-354 | a power-up spawns exactly on frames that are multiples of 601 |
| Session.DispatchInv | mandir_jumper.py:297-307 | every input event keeps the session invariant |
| Session.HandleEventsInv | mandir_jumper.py:293-308 | handling any event sequence keeps the session invariant |
| Session.QuitStopsHandling | mandir_jumper.py:294-296 | events after the first quit have no effect |
| Session.Play | mandir_jumper.py:560-565 | the high score never goes down over a session |
| Session.PlayEndsAtQuit | mandir_jumper.py:560-565 | the loop ends after the frame of a pass with a quit: passes after it change nothing |
| Session.PlayConcat | mandir_jumper.py:560-565 | passes without a quit run one after another: a session is those passes followed by the rest |
| Session.PlayInv | mandir_jumper.py:560-565 | the invariant holds through any run of the main loop, whatever the input and the draws |
| Session.FramesInv | mandir_jumper.py:321-384 | the invariant holds after any number of frames |
| Session.GameOverFreezes | mandir_jumper.py:321-323 | once the game is over no number of frames changes the state |
| Session.OpeningStep | mandir_jumper.py:325-354 | during the first 120 frames each frame moves the player 2 up, spawns nothing, and scores by the closed form |
| Session.OpeningFrames | mandir_jumper.py:321-354 | after n <= 120 frames of a fresh game the player is at (80, 600 - 2n), nothing has spawned, the score is its closed form and the game runs |
| Session.SixtySixFrames | mandir_jumper.py:333-336 | after 66 frames of a fresh game the score and high score are 1, the player is at (80, 468), and the game runs |

## Left out

- Drawing: the background, the walls, the entities and the heads-up display are presentation only.
- The pygame window, font, clock and frame pacing are left out. So are `pygame.quit` and `sys.exit`: a quit only ends `Session.Play`.
- The random choices (`random.choice`, `random.randint`, `random.uniform`) are a `Draws` parameter. `Game.ValidDraws` requires each drawn value to lie in the range the code draws it from.
- `math.sin` in the power-up's collision box is a parameter `sine`. `PowerUps.HitBoxNearBase` assumes it is bounded by 1.
- Coordinates are exact reals. IEEE float rounding is not modelled.
- pygame rectangles truncate float coordinates to integers, and that truncation is not modelled. Collision is strict overlap of the real rectangles: touching edges do not collide, as with `colliderect`.
- The jump's start and target fields do not exist on a player who has never jumped. The model starts them at 0 (`Players.New`); they are read only while jumping.
- An enemy's direction, stored as -1 or +1, is the datatype `Enemies.Direction`. `Enemies.Direction.Sign` gives back the factor.
- Players.Tick: its contract is stated by the lemmas `Players.CountdownExact` and `Players.IdleEffectUntouched` (mandir_jumper.py:46-54) rather than by `ensures` on the function itself.
- Game.Apply: the effect it picks (a chiyaa re-arms the boost, anything else invincibility, mandir_jumper.py:380-383) is stated by `Game.Collect`'s effect clauses.
- Players.Update: its contract is stated by the lemmas `Players.UpdateTicksEffects`, `Players.UpdateClimbs`, `Players.UpdateLands` and `Players.UpdateInFlight` rather than by `ensures` on the function itself.
- Session.FramesInv: repeats a single `Draws` value on every frame. `Session.PlayInv` states the invariant with different draws on each frame.
- Game.Advance: how many copies of each entity survive is stated by the lemma `Game.AdvanceCounts` (mandir_jumper.py:356-366), not by `ensures` on the function itself.
- Game.Advanced and Game.Update: their entity clauses say which enemies and power-ups are present, not how many copies of each. `Game.AdvanceCounts` gives the copy count of a pass.
- Game.EnemyPass and Game.PowerUpPass: their clauses say which entities survive, not how many copies of each. The surviving list is `Game.Advance` of the spawner's list, so `Game.AdvanceCounts` gives the copy count.
- Session.Play: its contract states only the high-score bound. The shape of the loop is stated by `Session.PlayEndsAtQuit` and `Session.PlayConcat`, and what one pass's events do by `Game.HandleEventsWhileRunning` and `Game.HandleEventsAfterGameOver`.

=== FILE: enemies.dfy ===
/**
 * Falling obstacles: crows and spinning khukuris. Each one drifts sideways
 * at its own speed, bouncing off the walls, and falls at its own speed.
 */
module Enemies {
  import opened Geometry

  datatype EnemyKind = Crow | Khukuri

  /** Horizontal heading: the game stores it as -1 (left) or +1 (right). */
  datatype Direction = Left | Right {
    /** The heading as the game's factor -1 or +1. */
    function Sign(): int {
      if this == Left then -1 else 1
    }

    /** Multiplying the factor by -1 turns the heading round. */
    function Flip(): (r: Direction)
      ensures r.Sign() == -Sign()
    {
      if this == Left then Right else Left
    }
  }

  /**
   * Speed, direction and fall speed are drawn once at spawn time and never
   * change; rotation is the khukuri's cosmetic spin angle in degrees.
   */
  datatype Enemy = Enemy(
    kind: EnemyKind,
    x: real,
    y: real,
    speed: real,
    direction: Direction,
    rotation: int,
    fallSpeed: real)

  function Width(k: EnemyKind): real {
    if k == Crow then 25.0 else 30.0
  }

  function Height(k: EnemyKind): real {
    if k == Crow then 20.0 else 30.0
  }

  /** The x at or past which an enemy of this kind touches the right wall. */
  function RightBound(k: EnemyKind): real {
    (ScreenWidth - WallInset) as real - Width(k)
  }

  /** The x at or before which an enemy touches the left wall. */
  const LeftBound: real := WallInset as real

  function HitBox(e: Enemy): Rect {
    Rect(e.x, e.y, Width(e.kind), Height(e.kind))
  }

  /**
   * One frame: move sideways by speed in the current direction, fall by the
   * fall speed, turn round when the new x is at or past a wall, and spin a
   * khukuri by 5 degrees.
   */
  function Update(e: Enemy): (r: Enemy)
    ensures r.kind == e.kind && r.speed == e.speed && r.fallSpeed == e.fallSpeed
    ensures r.y - e.y == e.fallSpeed
    ensures r.x == e.x + (if e.direction == Right then e.speed else -e.speed)
    ensures r.direction != e.direction <==> r.x <= LeftBound || r.x >= RightBound(e.kind)
    ensures r.rotation - e.rotation == (if e.kind == Khukuri then 5 else 0)
  {
    var x := if e.direction == Right then e.x + e.speed else e.x - e.speed;
    var dir := if x <= LeftBound || x >= RightBound(e.kind) then e.direction.Flip() else e.direction;
    var rot := if e.kind == Khukuri then e.rotation + 5 else e.rotation;
    e.(x := x, y := e.y + e.fallSpeed, direction := dir, rotation := rot)
  }

  /**
   * The bounce invariant: the speed is one the spawner can draw, the enemy
   * overshoots a wall by less than one step, and whenever it is at or past
   * a wall it is heading back inwards.
   */
  predicate InBounds(e: Enemy) {
    && 1.0 <= e.speed <= 3.0
    && LeftBound - e.speed < e.x < RightBound(e.kind) + e.speed
    && (e.x <= LeftBound ==> e.direction == Right)
    && (e.x >= RightBound(e.kind) ==> e.direction == Left)
  }

  /** Bouncing keeps every enemy within one step of the walls, frame after frame. */
  lemma UpdateStaysInBounds(e: Enemy)
    requires InBounds(e)
    ensures InBounds(Update(e))
  {
  }

  /** An enemy satisfying the invariant never strays more than 3 units past either wall. */
  lemma InBoundsNearWalls(e: Enemy)
    requires InBounds(e)
    ensures LeftBound - 3.0 < e.x < RightBound(e.kind) + 3.0
  {
  }
}

=== FILE: game.dfy ===
/**
 * The game session: the player, the live enemies and power-ups, the score,
 * the spawn timers and the camera, advanced one frame at a time; plus
 * spawning, restart and input dispatch.
 *
 * Randomness enters as a `Draws` record holding the values a spawn would
 * draw, and the sine used for the power-ups' bobbing as a parameter.
 */
module Game {
  import opened Geometry
  import Players
  import Enemies
  import PowerUps

  /** Where the player starts: on the left wall, 100 units above the bottom of the first screen. */
  const StartX: real := WallInset as real
  const StartY: real := (ScreenHeight - 100) as real

  /** The camera sits this far above the player. */
  const CameraLead: real := (ScreenHeight - 200) as real
  /** Entities more than this far below the top of the view are dropped. */
  const PruneDepth: real := (ScreenHeight + 100) as real

  /** Frames before the score starts counting; after that, a point every 6 frames. */
  const ScoreWarmUp: nat := 60
  /** Frames before enemies start spawning. */
  const EnemyWarmUp: nat := 120
  /** A power-up spawns once its timer exceeds this. */
  const PowerUpInterval: nat := 600

  datatype GameState = GameState(
    player: Players.Player,
    enemies: seq<Enemies.Enemy>,
    powerups: seq<PowerUps.PowerUp>,
    score: nat,
    highscore: nat,
    cameraY: real,
    spawnTimer: nat,
    powerupSpawnTimer: nat,
    gameStartTimer: nat,
    gameOver: bool)

  /** A new session that keeps the given high score. */
  function Fresh(highscore: nat): GameState {
    GameState(Players.New(StartX, StartY), [], [], 0, highscore, 0.0, 0, 0, 0, false)
  }

  /** The state the game starts in. */
  function Init(): GameState {
    Fresh(0)
  }

  /**
   * Restart after a game over: a fresh player at (80, 600), no enemies or
   * power-ups, score, camera and all timers back to zero, and the session's
   * high score kept.
   */
  function Restart(s: GameState): (r: GameState)
    ensures r.player == Players.New(80.0, 600.0)
    ensures r.enemies == [] && r.powerups == []
    ensures r.score == 0 && r.cameraY == 0.0
    ensures r.spawnTimer == 0 && r.powerupSpawnTimer == 0 && r.gameStartTimer == 0
    ensures !r.gameOver
    ensures r.highscore == s.highscore
  {
    Fresh(s.highscore)
  }

  // ---------------------------------------------------------------------
  // Score
  // ---------------------------------------------------------------------

  /** A point is scored on frame t: after the warm-up, every 6th frame. */
  predicate ScoreTick(t: nat) {
    t > ScoreWarmUp && (t - ScoreWarmUp) % 6 == 0
  }

  /** The score an uninterrupted session has after t frames. */
  function ScoreAt(t: nat): nat {
    if t > ScoreWarmUp then (t - ScoreWarmUp) / 6 else 0
  }

  /** The closed form agrees with the per-frame rule: it grows by one exactly on the scoring frames. */
  lemma ScoreAtStep(t: nat)
    ensures ScoreAt(t + 1) == ScoreAt(t) + (if ScoreTick(t + 1) then 1 else 0)
  {
    if t + 1 > ScoreWarmUp {
      var n := t + 1 - ScoreWarmUp;
      if n > 1 {
        assert (n - 1) / 6 + (if n % 6 == 0 then 1 else 0) == n / 6;
      }
    }
  }

  /** No point is scored before frame 66, and the first one is scored on frame 66. */
  lemma FirstPointAt66()
    ensures forall t: nat :: t < 66 ==> ScoreAt(t) == 0
    ensures ScoreAt(66) == 1
  {
  }

  // ---------------------------------------------------------------------
  // Spawning
  // ---------------------------------------------------------------------

  /**
   * The values one frame's spawns draw: the enemy's kind, x, height above
   * the camera, speed, direction and fall speed, and the power-up's kind,
   * x and height above the camera.
   */
  datatype Draws = Draws(
    enemyKind: Enemies.EnemyKind,
    enemyX: int,
    enemyRise: int,
    enemySpeed: real,
    enemyDirection: Enemies.Direction,
    enemyFall: real,
    powerUpKind: PowerUps.PowerUpKind,
    powerUpX: int,
    powerUpRise: int)

  /** The ranges the draws come from. */
  predicate ValidDraws(d: Draws) {
    && 100 <= d.enemyX <= ScreenWidth - 120
    && 100 <= d.enemyRise <= 300
    && 1.0 <= d.enemySpeed <= 3.0
    && 0.5 <= d.enemyFall <= 1.5
    && 100 <= d.powerUpX <= ScreenWidth - 120
    && 50 <= d.powerUpRise <= 200
  }

  /** A new enemy between the walls, 100 to 300 units above the camera, unrotated. */
  function SpawnEnemy(cameraY: real, d: Draws): (e: Enemies.Enemy)
    requires ValidDraws(d)
    ensures Enemies.InBounds(e)
    ensures 100.0 <= e.x <= 280.0
    ensures cameraY - 300.0 <= e.y <= cameraY - 100.0
    ensures e.rotation == 0 && e.kind == d.enemyKind
  {
    Enemies.Enemy(d.enemyKind, d.enemyX as real, cameraY - d.enemyRise as real,
                  d.enemySpeed, d.enemyDirection, 0, d.enemyFall)
  }

  /** A new power-up between the walls, 50 to 200 units above the camera, at phase 0. */
  function SpawnPowerUp(cameraY: real, d: Draws): (u: PowerUps.PowerUp)
    requires ValidDraws(d)
    ensures 100.0 <= u.x <= 280.0
    ensures cameraY - 200.0 <= u.y <= cameraY - 50.0
    ensures u.bob == 0.0 && u.kind == d.powerUpKind
  {
    PowerUps.PowerUp(d.powerUpKind, d.powerUpX as real, cameraY - d.powerUpRise as real, 0.0)
  }

  /** Frames between enemy spawns: 90, one fewer per 50 points, never below 30. */
  function SpawnRate(score: nat): (r: int)
    ensures 30 <= r <= 90
    ensures r == 30 <==> score >= 3000
    ensures score < 3000 ==> 50 * (90 - r) <= score < 50 * (91 - r)
  {
    if 90 - score / 50 > 30 then 90 - score / 50 else 30
  }

  /** A spawn timer and the collection it may have added to. */
  datatype Spawned<T> = Spawned(timer: nat, items: seq<T>)

  /**
   * The enemy spawner on frame t: idle during the 120-frame warm-up; after
   * that its timer advances, and once it exceeds the spawn rate an enemy is
   * appended and the timer goes back to 0.
   */
  function EnemySpawn(t: nat, timer: nat, score: nat, cameraY: real,
                      es: seq<Enemies.Enemy>, d: Draws): (r: Spawned<Enemies.Enemy>)
    requires ValidDraws(d)
    ensures t <= 120 ==> r == Spawned(timer, es)
    ensures t > 120 ==> r.timer <= SpawnRate(score)
    ensures t > 120 ==> r.timer == if timer >= SpawnRate(score) then 0 else timer + 1
    ensures |r.items| == |es| + 1 <==> t > 120 && timer >= SpawnRate(score)
    ensures |r.items| == |es| || |r.items| == |es| + 1
    ensures r.items[..|es|] == es
    ensures |r.items| > |es| ==> r.timer == 0 && r.items[|es|] == SpawnEnemy(cameraY, d)
    ensures |r.items| == |es| && t > 120 ==> r.timer == timer + 1
  {
    if t > EnemyWarmUp then
      var timer' := timer + 1;
      if timer' > SpawnRate(score) then Spawned(0, es + [SpawnEnemy(cameraY, d)])
      else Spawned(timer', es)
    else
      Spawned(timer, es)
  }

  /**
   * The power-up spawner: its timer advances every frame, and once it
   * exceeds 600 a power-up is appended and the timer goes back to 0.
   */
  function PowerUpSpawn(timer: nat, cameraY: real, us: seq<PowerUps.PowerUp>, d: Draws)
    : (r: Spawned<PowerUps.PowerUp>)
    requires ValidDraws(d)
    ensures r.timer <= 600
    ensures |r.items| == |us| + 1 <==> timer >= 600
    ensures |r.items| == |us| || |r.items| == |us| + 1
    ensures r.items[..|us|] == us
    ensures |r.items| > |us| ==> r.timer == 0 && r.items[|us|] == SpawnPowerUp(cameraY, d)
    ensures |r.items| == |us| ==> r.timer == timer + 1
  {
    var timer' := timer + 1;
    if timer' > PowerUpInterval then Spawned(0, us + [SpawnPowerUp(cameraY, d)])
    else Spawned(timer', us)
  }

  // ---------------------------------------------------------------------
  // Entity pass
  // ---------------------------------------------------------------------

  /** Every entity stepped once, in order. */
  function StepAll<T>(xs: seq<T>, step: T -> T): (r: seq<T>)
    ensures |r| == |xs|
    ensures forall i :: 0 <= i < |xs| ==> r[i] == step(xs[i])
  {
    if |xs| == 0 then [] else [step(xs[0])] + StepAll(xs[1..], step)
  }

  /**
   * Steps every entity once and drops those whose y ends up below `bound`,
   * keeping the survivors in order.
   */
  function Advance<T(==)>(xs: seq<T>, step: T -> T, y: T -> real, bound: real): (r: seq<T>)
    ensures |r| <= |xs|
    ensures forall x :: x in r ==> y(x) <= bound && x in StepAll(xs, step)
    ensures forall i :: 0 <= i < |xs| && y(step(xs[i])) <= bound ==> step(xs[i]) in r
    ensures forall x :: x in StepAll(xs, step) && y(x) <= bound ==> x in r
  {
    if |xs| == 0 then []
    else
      var x := step(xs[0]);
      var rest := Advance(xs[1..], step, y, bound);
      assert StepAll(xs, step) == [x] + StepAll(xs[1..], step);
      assert forall i :: 1 <= i < |xs| ==> xs[i] == xs[1..][i - 1];
      if y(x) > bound then rest else [x] + rest
  }

  /** Stepping a list with one more entity at its end steps that entity last. */
  lemma {:induction false} StepAllAppend<T>(xs: seq<T>, x: T, step: T -> T)
    ensures StepAll(xs + [x], step) == StepAll(xs, step) + [step(x)]
    decreases |xs|
  {
    if |xs| > 0 {
      assert (xs + [x])[1..] == xs[1..] + [x];
      StepAllAppend(xs[1..], x, step);
    }
  }

  /**
   * The pass keeps each survivor exactly as often as it was stepped and
   * drops every copy of a pruned one: nothing is duplicated or lost.
   */
  lemma {:induction false} AdvanceCounts<T>(xs: seq<T>, step: T -> T, y: T -> real, bound: real)
    ensures forall x ::
      multiset(Advance(xs, step, y, bound))[x] == (if y(x) <= bound then multiset(StepAll(xs, step))[x] else 0)
    decreases |xs|
  {
    if |xs| > 0 {
      AdvanceCounts(xs[1..], step, y, bound);
      assert StepAll(xs, step) == [step(xs[0])] + StepAll(xs[1..], step);
    }
  }

  /**
   * The pass over a list that may have had one entity x appended: the
   * survivors are the stepped old entities and, if x was appended, the
   * stepped x, all no lower than the bound.
   */
  lemma AdvanceSpawned<T>(xs: seq<T>, items: seq<T>, x: T, step: T -> T, y: T -> real, bound: real)
    requires items == xs || items == xs + [x]
    ensures forall z :: z in Advance(items, step, y, bound) <==>
      y(z) <= bound && (z in StepAll(xs, step) || (|items| > |xs| && z == step(x)))
  {
    if |items| > |xs| {
      StepAllAppend(xs, x, step);
    }
  }

  function EnemyY(e: Enemies.Enemy): real { e.y }
  function PowerUpY(u: PowerUps.PowerUp): real { u.y }

  // ---------------------------------------------------------------------
  // Collisions
  // ---------------------------------------------------------------------

  /** The enemy check, scanning the enemies in order until one overlaps the player. */
  function EnemyHit(p: Players.Player, es: seq<Enemies.Enemy>): (r: bool)
    ensures r <==> exists e :: e in es && Overlaps(Players.HitBox(p), Enemies.HitBox(e))
  {
    if |es| == 0 then false
    else if Overlaps(Players.HitBox(p), Enemies.HitBox(es[0])) then true
    else
      assert forall e :: e in es <==> e == es[0] || e in es[1..];
      EnemyHit(p, es[1..])
  }

  /** The power-up's bobbing box overlaps the player's box. */
  predicate Hit(box: Rect, u: PowerUps.PowerUp, sine: real -> real) {
    Overlaps(box, PowerUps.HitBox(u, sine))
  }

  /** Some power-up of kind k in us overlaps the player's box. */
  predicate Touches(box: Rect, us: seq<PowerUps.PowerUp>, sine: real -> real,
                    k: PowerUps.PowerUpKind) {
    exists u :: u in us && u.kind == k && Hit(box, u, sine)
  }

  /** The power-ups of us that overlap the player's box, in order. */
  function Hits(box: Rect, us: seq<PowerUps.PowerUp>, sine: real -> real)
    : (r: seq<PowerUps.PowerUp>)
    ensures forall u :: u in r ==> u in us && Hit(box, u, sine)
  {
    if |us| == 0 then []
    else if Hit(box, us[0], sine) then [us[0]] + Hits(box, us[1..], sine)
    else Hits(box, us[1..], sine)
  }

  /** What power-up collection leaves: the player with its effects, and the power-ups still in play. */
  datatype Collected = Collected(player: Players.Player, kept: seq<PowerUps.PowerUp>)

  /** The effect a power-up gives: chiyaa a speed boost, anything else invincibility. */
  function Apply(p: Players.Player, k: PowerUps.PowerUpKind): Players.Player {
    if k == PowerUps.Chiyaa then Players.ActivateSpeedBoost(p) else Players.ActivateInvincibility(p)
  }

  /**
   * Collects, in order, every power-up overlapping the player's box, taken
   * once before the scan: each is removed and its effect applied to p.
   * Collecting never moves the player.
   */
  function Collect(box: Rect, p: Players.Player, us: seq<PowerUps.PowerUp>, sine: real -> real)
    : (r: Collected)
    ensures Players.SameMotion(r.player, p)
    ensures r.player.speedBoost ==
      if Touches(box, us, sine, PowerUps.Chiyaa) then Players.Effect(true, 300) else p.speedBoost
    ensures r.player.invincible ==
      if Touches(box, us, sine, PowerUps.PrayerWheel) then Players.Effect(true, 180) else p.invincible
    ensures forall u :: u in r.kept <==> u in us && !Hit(box, u, sine)
    ensures multiset(r.kept) + multiset(Hits(box, us, sine)) == multiset(us)
    decreases |us|
  {
    if |us| == 0 then Collected(p, [])
    else
      var u := us[0];
      assert us == [u] + us[1..];
      if Hit(box, u, sine) then
        Collect(box, Apply(p, u.kind), us[1..], sine)
      else
        var c := Collect(box, p, us[1..], sine);
        Collected(c.player, [u] + c.kept)
  }

  // ---------------------------------------------------------------------
  // One frame
  // ---------------------------------------------------------------------

  /**
   * e is among the enemies after a frame from s to r with draws d exactly
   * when it is an enemy of s or the enemy spawned this frame, stepped once,
   * and no lower than 800 below the new camera. The spawn happens after the
   * warm-up when the old timer has reached the rate for the new score.
   */
  predicate EnemyAfter(s: GameState, d: Draws, r: GameState, e: Enemies.Enemy)
    requires ValidDraws(d)
  {
    && e.y <= r.cameraY + 800.0
    && (|| e in StepAll(s.enemies, Enemies.Update)
        || (&& r.gameStartTimer > 120 && s.spawnTimer >= SpawnRate(r.score)
            && e == Enemies.Update(SpawnEnemy(r.cameraY, d))))
  }

  /**
   * u is among the power-ups after a frame's entity pass exactly when it is
   * a power-up of s or the one spawned this frame (once the old timer has
   * reached 600), stepped once, and no lower than 800 below the new camera.
   */
  predicate PowerUpAfter(s: GameState, d: Draws, r: GameState, u: PowerUps.PowerUp)
    requires ValidDraws(d)
  {
    && u.y <= r.cameraY + 800.0
    && (|| u in StepAll(s.powerups, PowerUps.Update)
        || (s.powerupSpawnTimer >= 600 && u == PowerUps.Update(SpawnPowerUp(r.cameraY, d))))
  }

  /**
   * The enemy spawner followed by the enemy pass, on frame t with the given
   * score and camera: the timer is idle through the warm-up and otherwise
   * advances or resets on a spawn; an enemy survives exactly when it is an
   * old one or the new spawn, stepped once, no lower than camera + 800.
   */
  function EnemyPass(t: nat, timer: nat, score: nat, cameraY: real,
                     es: seq<Enemies.Enemy>, d: Draws): (r: Spawned<Enemies.Enemy>)
    requires ValidDraws(d)
    ensures t <= 120 ==> r.timer == timer
    ensures t > 120 ==> r.timer == if timer >= SpawnRate(score) then 0 else timer + 1
    ensures r.timer <= 90 || r.timer == timer
    ensures forall e :: e in r.items <==>
      && e.y <= cameraY + 800.0
      && (|| e in StepAll(es, Enemies.Update)
          || (t > 120 && timer >= SpawnRate(score) && e == Enemies.Update(SpawnEnemy(cameraY, d))))
  {
    var sp := EnemySpawn(t, timer, score, cameraY, es, d);
    var bound := cameraY + PruneDepth;
    AdvanceSpawned(es, sp.items, SpawnEnemy(cameraY, d), Enemies.Update, EnemyY, bound);
    Spawned(sp.timer, Advance(sp.items, Enemies.Update, EnemyY, bound))
  }

  /**
   * The power-up spawner followed by the power-up pass: the timer advances
   * or resets on a spawn; a power-up survives exactly when it is an old one
   * or the new spawn, stepped once, no lower than camera + 800.
   */
  function PowerUpPass(timer: nat, cameraY: real, us: seq<PowerUps.PowerUp>, d: Draws)
    : (r: Spawned<PowerUps.PowerUp>)
    requires ValidDraws(d)
    ensures r.timer == if timer >= 600 then 0 else timer + 1
    ensures forall u :: u in r.items <==>
      && u.y <= cameraY + 800.0
      && (|| u in StepAll(us, PowerUps.Update)
          || (timer >= 600 && u == PowerUps.Update(SpawnPowerUp(cameraY, d))))
  {
    var sp := PowerUpSpawn(timer, cameraY, us, d);
    var bound := cameraY + PruneDepth;
    AdvanceSpawned(us, sp.items, SpawnPowerUp(cameraY, d), PowerUps.Update, PowerUpY, bound);
    Spawned(sp.timer, Advance(sp.items, PowerUps.Update, PowerUpY, bound))
  }

  /**
   * The part of a running frame before any collision check: the frame
   * counter advances; the player moves; the camera follows it; the score and
   * high score are updated; the spawners run; every entity is stepped and
   * those far below the view are dropped.
   */
  function Advanced(s: GameState, d: Draws): (r: GameState)
    requires ValidDraws(d)
    ensures r.gameStartTimer == s.gameStartTimer + 1
    ensures r.player == Players.Update(s.player)
    ensures r.cameraY == r.player.y - 500.0
    ensures r.score == s.score + (if ScoreTick(r.gameStartTimer) then 1 else 0)
    ensures r.highscore >= s.highscore
    ensures r.highscore == if r.score > s.score && r.score > s.highscore then r.score else s.highscore
    ensures s.highscore >= s.score ==> r.highscore == if r.score > s.highscore then r.score else s.highscore
    ensures s.highscore >= s.score ==> r.highscore >= r.score
    ensures forall e :: e in r.enemies <==> EnemyAfter(s, d, r, e)
    ensures forall u :: u in r.powerups <==> PowerUpAfter(s, d, r, u)
    ensures !r.gameOver
    ensures r.gameStartTimer <= 120 ==> r.spawnTimer == s.spawnTimer
    ensures r.gameStartTimer > 120 ==>
      r.spawnTimer == if s.spawnTimer >= SpawnRate(r.score) then 0 else s.spawnTimer + 1
    ensures r.spawnTimer <= 90 || r.spawnTimer == s.spawnTimer
    ensures r.powerupSpawnTimer == if s.powerupSpawnTimer >= 600 then 0 else s.powerupSpawnTimer + 1
  {
    var t := s.gameStartTimer + 1;
    var p := Players.Update(s.player);
    var camera := p.y - CameraLead;
    var tick := ScoreTick(t);
    var score := if tick then s.score + 1 else s.score;
    var high := if tick && score > s.highscore then score else s.highscore;
    var es := EnemyPass(t, s.spawnTimer, score, camera, s.enemies, d);
    var us := PowerUpPass(s.powerupSpawnTimer, camera, s.powerups, d);
    GameState(p, es.items, us.items, score, high, camera, es.timer, us.timer, t, false)
  }

  /**
   * The collision checks that end a running frame: unless the player is
   * invincible, an enemy overlapping the player ends the game at once and
   * nothing else happens; otherwise every power-up overlapping the player
   * is collected, each removed once and its effect applied. Nothing but the
   * player's effects, the power-ups and the game-over flag changes.
   */
  function Collisions(m: GameState, sine: real -> real): (r: GameState)
    ensures r.gameOver <==>
      !m.player.invincible.on
      && exists e :: e in m.enemies && Overlaps(Players.HitBox(m.player), Enemies.HitBox(e))
    ensures r.gameOver ==> r == m.(gameOver := true)
    ensures Players.SameMotion(r.player, m.player)
    ensures r == m.(player := r.player, powerups := r.powerups, gameOver := r.gameOver)
    ensures !r.gameOver ==>
      forall u :: u in r.powerups <==> u in m.powerups && !Hit(Players.HitBox(m.player), u, sine)
    ensures !r.gameOver ==>
      multiset(r.powerups) + multiset(Hits(Players.HitBox(m.player), m.powerups, sine)) == multiset(m.powerups)
    ensures !r.gameOver ==>
      r.player.speedBoost ==
        if Touches(Players.HitBox(m.player), m.powerups, sine, PowerUps.Chiyaa) then Players.Effect(true, 300)
        else m.player.speedBoost
    ensures !r.gameOver ==>
      r.player.invincible ==
        if Touches(Players.HitBox(m.player), m.powerups, sine, PowerUps.PrayerWheel) then Players.Effect(true, 180)
        else m.player.invincible
  {
    if !m.player.invincible.on && EnemyHit(m.player, m.enemies) then
      m.(gameOver := true)
    else
      var c := Collect(Players.HitBox(m.player), m.player, m.powerups, sine);
      m.(player := c.player, powerups := c.kept, gameOver := false)
  }

  /** A running frame's counters, score, high score, camera and player motion. */
  lemma RunningFrameCounters(s: GameState, d: Draws, sine: real -> real)
    requires ValidDraws(d)
    ensures var r := Collisions(Advanced(s, d), sine);
      && r.gameStartTimer == s.gameStartTimer + 1
      && r.score == s.score + (if ScoreTick(r.gameStartTimer) then 1 else 0)
      && r.highscore >= s.highscore
      && r.highscore == (if r.score > s.score && r.score > s.highscore then r.score else s.highscore)
      && (s.highscore >= s.score ==> r.highscore >= r.score)
      && (r.gameStartTimer <= 120 ==> r.spawnTimer == s.spawnTimer)
      && (r.gameStartTimer > 120 ==>
            r.spawnTimer == if s.spawnTimer >= SpawnRate(r.score) then 0 else s.spawnTimer + 1)
      && r.powerupSpawnTimer == (if s.powerupSpawnTimer >= 600 then 0 else s.powerupSpawnTimer + 1)
      && Players.SameMotion(r.player, Players.Update(s.player))
      && r.cameraY == r.player.y - 500.0
  {
  }

  /** The enemies and power-ups after a running frame. */
  lemma RunningFrameEntities(s: GameState, d: Draws, sine: real -> real)
    requires ValidDraws(d)
    ensures var r := Collisions(Advanced(s, d), sine);
      && (forall e :: e in r.enemies <==> EnemyAfter(s, d, r, e))
      && (forall u :: u in r.powerups <==>
            PowerUpAfter(s, d, r, u) && (!r.gameOver ==> !Hit(Players.HitBox(r.player), u, sine)))
  {
    var m := Advanced(s, d);
    var r := Collisions(m, sine);
    assert r == m.(player := r.player, powerups := r.powerups, gameOver := r.gameOver);
    assert Players.HitBox(r.player) == Players.HitBox(m.player);
  }

  /** Game over and power-up collection at the end of a running frame. */
  lemma RunningFrameCollisions(s: GameState, d: Draws, sine: real -> real)
    requires ValidDraws(d)
    ensures var r := Collisions(Advanced(s, d), sine);
      && (r.gameOver <==>
            !Players.Update(s.player).invincible.on
            && exists e :: e in r.enemies && Overlaps(Players.HitBox(r.player), Enemies.HitBox(e)))
      && r.player.speedBoost ==
           (if !r.gameOver && Touches(Players.HitBox(r.player), Advanced(s, d).powerups, sine, PowerUps.Chiyaa)
            then Players.Effect(true, 300) else Players.Update(s.player).speedBoost)
      && r.player.invincible ==
           (if !r.gameOver && Touches(Players.HitBox(r.player), Advanced(s, d).powerups, sine, PowerUps.PrayerWheel)
            then Players.Effect(true, 180) else Players.Update(s.player).invincible)
      && (!r.gameOver ==>
            multiset(r.powerups) + multiset(Hits(Players.HitBox(r.player), Advanced(s, d).powerups, sine))
              == multiset(Advanced(s, d).powerups))
  {
  }

  /**
   * One frame of the session. Nothing happens after a game over; otherwise
   * the frame advances and then the collisions are checked.
   */
  function Update(s: GameState, d: Draws, sine: real -> real): (r: GameState)
    requires ValidDraws(d)
    ensures s.gameOver ==> r == s
    ensures !s.gameOver ==>
      && r.gameStartTimer == s.gameStartTimer + 1
      && r.score == s.score + (if ScoreTick(r.gameStartTimer) then 1 else 0)
      && r.highscore >= s.highscore
      && r.highscore == (if r.score > s.score && r.score > s.highscore then r.score else s.highscore)
      && (r.gameStartTimer <= 120 ==> r.spawnTimer == s.spawnTimer)
      && (r.gameStartTimer > 120 ==>
            r.spawnTimer == if s.spawnTimer >= SpawnRate(r.score) then 0 else s.spawnTimer + 1)
      && r.powerupSpawnTimer == (if s.powerupSpawnTimer >= 600 then 0 else s.powerupSpawnTimer + 1)
      && Players.SameMotion(r.player, Players.Update(s.player))
      && r.cameraY == r.player.y - 500.0
      && (forall e :: e in r.enemies <==> EnemyAfter(s, d, r, e))
      && (forall u :: u in r.powerups <==>
            PowerUpAfter(s, d, r, u) && (!r.gameOver ==> !Hit(Players.HitBox(r.player), u, sine)))
      && (r.gameOver <==>
            !Players.Update(s.player).invincible.on
            && exists e :: e in r.enemies && Overlaps(Players.HitBox(r.player), Enemies.HitBox(e)))
      && r.player.speedBoost ==
           (if !r.gameOver && Touches(Players.HitBox(r.player), Advanced(s, d).powerups, sine, PowerUps.Chiyaa)
            then Players.Effect(true, 300) else Players.Update(s.player).speedBoost)
      && r.player.invincible ==
           (if !r.gameOver && Touches(Players.HitBox(r.player), Advanced(s, d).powerups, sine, PowerUps.PrayerWheel)
            then Players.Effect(true, 180) else Players.Update(s.player).invincible)
      && (!r.gameOver ==>
            multiset(r.powerups) + multiset(Hits(Players.HitBox(r.player), Advanced(s, d).powerups, sine))
              == multiset(Advanced(s, d).powerups))
    ensures s.highscore >= s.score ==> r.highscore >= r.score
  {
    if s.gameOver then s
    else
      RunningFrameCounters(s, d, sine);
      RunningFrameEntities(s, d, sine);
      RunningFrameCollisions(s, d, sine);
      Collisions(Advanced(s, d), sine)
  }

  // ---------------------------------------------------------------------
  // Input
  // ---------------------------------------------------------------------

  datatype Key = Space | KeyR | OtherKey

  /** The input events the game reacts to; everything else is OtherEvent. */
  datatype Event = Quit | KeyDown(key: Key) | MouseButtonDown | OtherEvent

  /**
   * One non-quit event: space or a click jumps while the game runs; R or a
   * click restarts after a game over; anything else is ignored.
   */
  function Dispatch(s: GameState, e: Event): (r: GameState)
    ensures r.highscore == s.highscore
    ensures !s.gameOver ==> r == s || r == s.(player := Players.Jump(s.player))
    ensures s.gameOver ==> r == s || r == Restart(s)
    ensures e == KeyDown(Space) || e == MouseButtonDown ==>
      !s.gameOver ==> r == s.(player := Players.Jump(s.player))
    ensures e == KeyDown(KeyR) || e == MouseButtonDown ==> s.gameOver ==> r == Restart(s)
    ensures e == KeyDown(Space) && s.gameOver ==> r == s
    ensures e == KeyDown(KeyR) && !s.gameOver ==> r == s
    ensures e == OtherEvent || e == KeyDown(OtherKey) || e == Quit ==> r == s
  {
    match e
    case KeyDown(Space) => if !s.gameOver then s.(player := Players.Jump(s.player)) else s
    case KeyDown(KeyR) => if s.gameOver then Restart(s) else s
    case MouseButtonDown => if !s.gameOver then s.(player := Players.Jump(s.player)) else Restart(s)
    case _ => s
  }

  /** Whether the game keeps running, and the state after the events. */
  datatype Handled = Handled(running: bool, state: GameState)

  /**
   * Handles one frame's events in order. A quit stops the game and the
   * events after it are not looked at.
   */
  function HandleEvents(s: GameState, events: seq<Event>): (r: Handled)
    ensures r.running <==> Quit !in events
    ensures r.state.highscore == s.highscore
    decreases |events|
  {
    if |events| == 0 then Handled(true, s)
    else if events[0] == Quit then Handled(false, s)
    else
      assert forall e :: e in events <==> e == events[0] || e in events[1..];
      HandleEvents(Dispatch(s, events[0]), events[1..])
  }

  /** Space or a click: the events that start a jump while the game runs. */
  predicate JumpEvent(e: Event) {
    e == KeyDown(Space) || e == MouseButtonDown
  }

  /** R or a click: the events that restart the game after a game over. */
  predicate RestartEvent(e: Event) {
    e == KeyDown(KeyR) || e == MouseButtonDown
  }

  /** Some event that `wanted` picks out comes before the first quit. */
  predicate BeforeQuit(events: seq<Event>, wanted: Event -> bool) {
    exists i :: 0 <= i < |events| && wanted(events[i]) && Quit !in events[..i]
  }

  /**
   * How BeforeQuit looks at the first event: a quit that is not itself
   * wanted hides everything after it; a wanted event is found at once; any
   * other event is skipped.
   */
  lemma BeforeQuitHead(events: seq<Event>, wanted: Event -> bool)
    requires |events| > 0
    ensures events[0] == Quit && !wanted(Quit) ==> !BeforeQuit(events, wanted)
    ensures events[0] != Quit && wanted(events[0]) ==> BeforeQuit(events, wanted)
    ensures events[0] != Quit && !wanted(events[0]) ==>
      (BeforeQuit(events, wanted) <==> BeforeQuit(events[1..], wanted))
  {
    if events[0] == Quit {
      forall i | 0 < i < |events|
        ensures Quit in events[..i]
      {
        assert events[..i][0] == Quit;
      }
    } else if wanted(events[0]) {
      assert events[..0] == [];
    } else {
      var rest := events[1..];
      if BeforeQuit(events, wanted) {
        var i :| 0 <= i < |events| && wanted(events[i]) && Quit !in events[..i];
        assert rest[i - 1] == events[i];
        assert rest[..i - 1] == events[1..i];
        assert forall x :: x in rest[..i - 1] ==> x in events[..i];
      }
      if BeforeQuit(rest, wanted) {
        var j :| 0 <= j < |rest| && wanted(rest[j]) && Quit !in rest[..j];
        assert events[..j + 1] == [events[0]] + rest[..j];
        assert events[j + 1] == rest[j];
      }
    }
  }

  /**
   * While the game runs, a frame's events leave it running and change at
   * most the player: the player jumps exactly when a space or a click comes
   * before the first quit, however many of them there are.
   */
  lemma {:induction false} HandleEventsWhileRunning(s: GameState, events: seq<Event>)
    requires !s.gameOver
    ensures HandleEvents(s, events).state ==
      if BeforeQuit(events, JumpEvent) then s.(player := Players.Jump(s.player)) else s
    decreases |events|
  {
    if |events| > 0 {
      BeforeQuitHead(events, JumpEvent);
      if events[0] != Quit {
        var next := Dispatch(s, events[0]);
        HandleEventsWhileRunning(next, events[1..]);
        if JumpEvent(events[0]) {
          assert next.(player := Players.Jump(next.player)) == next;
        }
      }
    }
  }

  /**
   * After a game over, a frame's events leave the game over, unchanged,
   * exactly when no R and no click comes before the first quit; otherwise
   * the game is restarted, and the new player may already have jumped.
   */
  lemma {:induction false} HandleEventsAfterGameOver(s: GameState, events: seq<Event>)
    requires s.gameOver
    ensures var r := HandleEvents(s, events).state;
      && (r.gameOver <==> !BeforeQuit(events, RestartEvent))
      && (!BeforeQuit(events, RestartEvent) ==> r == s)
      && (BeforeQuit(events, RestartEvent) ==>
            r == Restart(s) || r == Restart(s).(player := Players.Jump(Restart(s).player)))
    decreases |events|
  {
    if |events| > 0 {
      BeforeQuitHead(events, RestartEvent);
      if events[0] != Quit {
        if RestartEvent(events[0]) {
          HandleEventsWhileRunning(Restart(s), events[1..]);
        } else {
          HandleEventsAfterGameOver(s, events[1..]);
        }
      }
    }
  }
}

=== FILE: geometry.dfy ===
/**
 * World constants of Mandir Jumper and the axis-aligned rectangles used for
 * collision between the player, the enemies and the power-ups.
 *
 * World coordinates grow downwards: climbing decreases y.
 */
module Geometry {

  /** Width and height of the playfield, in world units. */
  const ScreenWidth: int := 400
  const ScreenHeight: int := 700

  /** Distance of each wall's inner edge from the side of the playfield. */
  const WallInset: int := 80

  /** An axis-aligned rectangle with its top-left corner at (x, y). */
  datatype Rect = Rect(x: real, y: real, w: real, h: real)

  /**
   * Strict rectangle intersection: the spans overlap on both axes and
   * rectangles that only share an edge do not collide. Every rectangle
   * of the game has a positive width and height.
   */
  predicate Overlaps(a: Rect, b: Rect) {
    && a.x < b.x + b.w
    && b.x < a.x + a.w
    && a.y < b.y + b.h
    && b.y < a.y + a.h
  }

}

=== FILE: players.dfy ===
/**
 * The player: automatic climbing, the 20-frame parabolic jump from one wall
 * to the other, and the two timed power-up effects (speed boost and
 * invincibility).
 */
module Players {
  import opened Geometry

  const Width: real := 30.0
  const Height: real := 40.0

  /** Number of frames from take-off to landing. */
  const JumpDuration: nat := 20
  /** Height of the jump arc at its peak. */
  const JumpHeight: real := 60.0
  /** Climb per frame without a speed boost. */
  const ClimbSpeed: real := 2.0

  /** Frames each power-up effect lasts once (re)activated. */
  const SpeedBoostFrames: int := 300
  const InvincibleFrames: int := 180

  /** A timed effect: a flag plus the number of frames it has left. */
  datatype Effect = Effect(on: bool, timer: int)

  datatype Player = Player(
    x: real,
    y: real,
    onLeftWall: bool,
    jumping: bool,
    jumpProgress: nat,
    jumpStartX: real,
    jumpStartY: real,
    jumpTargetX: real,
    speedBoost: Effect,
    invincible: Effect)

  /**
   * A player at (x, y) on the left wall, neither jumping nor under any
   * effect. The jump start and target only get values on the first jump;
   * here they start at 0.
   */
  function New(x: real, y: real): Player {
    Player(x, y, true, false, 0, 0.0, 0.0, 0.0, Effect(false, 0), Effect(false, 0))
  }

  /** The x at which the player stands on the left wall (true) or the right wall (false). */
  function WallX(left: bool): real {
    if left then WallInset as real else (ScreenWidth - WallInset) as real - Width
  }

  /** The collision box: the player's position with its fixed size. */
  function HitBox(p: Player): Rect {
    Rect(p.x, p.y, Width, Height)
  }

  /** The two players agree on everything except their timed effects. */
  predicate SameMotion(a: Player, b: Player) {
    a.(speedBoost := b.speedBoost, invincible := b.invincible) == b
  }

  // ---------------------------------------------------------------------
  // Timed effects
  // ---------------------------------------------------------------------

  /** One frame of a timed effect: while on, count down and switch off when the count reaches zero. */
  function Tick(e: Effect): Effect {
    if e.on then
      var t := e.timer - 1;
      Effect(t > 0, t)
    else
      e
  }

  /** The effect after k frames. */
  function Ticks(e: Effect, k: nat): Effect {
    if k == 0 then e else Tick(Ticks(e, k - 1))
  }

  /** An effect with t >= 1 frames left stays on for exactly t - 1 more frames and switches off on the t-th. */
  lemma {:induction false} CountdownExact(e: Effect, k: nat)
    requires e.on && e.timer >= 1
    ensures Ticks(e, k) == if k < e.timer then Effect(true, e.timer - k) else Effect(false, 0)
  {
    if k > 0 {
      CountdownExact(e, k - 1);
    }
  }

  /** While an effect is off, its timer is never touched. */
  lemma {:induction false} IdleEffectUntouched(e: Effect, k: nat)
    requires !e.on
    ensures Ticks(e, k) == e
  {
    if k > 0 {
      IdleEffectUntouched(e, k - 1);
    }
  }

  /** Re-arms the speed boost for the full 300 frames, whatever was left of it. */
  function ActivateSpeedBoost(p: Player): (r: Player)
    ensures r.speedBoost == Effect(true, 300)
    ensures r.invincible == p.invincible && SameMotion(r, p)
  {
    p.(speedBoost := Effect(true, SpeedBoostFrames))
  }

  /** Re-arms invincibility for the full 180 frames, whatever was left of it. */
  function ActivateInvincibility(p: Player): (r: Player)
    ensures r.invincible == Effect(true, 180)
    ensures r.speedBoost == p.speedBoost && SameMotion(r, p)
  {
    p.(invincible := Effect(true, InvincibleFrames))
  }

  // ---------------------------------------------------------------------
  // Climbing and jumping
  // ---------------------------------------------------------------------

  /** Fraction of the 20-frame jump completed after k frames. */
  function Progress(k: nat): real {
    k as real / 20.0
  }

  /**
   * x after k frames of a jump from a to b, accumulated frame by frame: each
   * frame covers a twentieth of the distance. LerpClosedForm shows this is
   * the linear interpolation a + (b - a) * k / 20.
   */
  function Lerp(a: real, b: real, k: nat): real {
    if k == 0 then a else Lerp(a, b, k - 1) + (b - a) / 20.0
  }

  /**
   * Height above the take-off y after k frames of a jump, accumulated frame
   * by frame. ArcClosedForm shows this is the parabola 60 * 4 * t * (1 - t)
   * with t = k / 20, which peaks at 60 at mid-jump.
   */
  function ArcOffset(k: nat): real {
    if k == 0 then 0.0 else ArcOffset(k - 1) + 0.6 * (21 - 2 * k) as real
  }

  /** The accumulated x is the linear interpolation between start and target. */
  lemma {:induction false} LerpClosedForm(a: real, b: real, k: nat)
    ensures Lerp(a, b, k) == a + (b - a) * Progress(k)
  {
    if k > 0 {
      LerpClosedForm(a, b, k - 1);
      assert (b - a) * Progress(k) == (b - a) * Progress(k - 1) + (b - a) / 20.0;
    }
  }

  /** The accumulated height is the parabola JumpHeight * 4 * t * (1 - t) at t = k / 20. */
  lemma {:induction false} ArcClosedForm(k: nat)
    ensures ArcOffset(k) == JumpHeight * 4.0 * Progress(k) * (1.0 - Progress(k))
  {
    if k > 0 {
      ArcClosedForm(k - 1);
      var x := k as real;
      assert Progress(k) == x / 20.0;
      assert Progress(k - 1) == (x - 1.0) / 20.0;
      assert 240.0 * ((x - 1.0) / 20.0) * (1.0 - (x - 1.0) / 20.0) == 0.6 * (x - 1.0) * (21.0 - x);
      assert 240.0 * (x / 20.0) * (1.0 - x / 20.0) == 0.6 * x * (20.0 - x);
      assert 0.6 * x * (20.0 - x) == 0.6 * (x - 1.0) * (21.0 - x) + 0.6 * (21.0 - 2.0 * x);
    }
  }

  lemma ProductNonNegative(a: int, b: int)
    requires 0 <= a && 0 <= b
    ensures 0 <= a * b
  {
  }

  lemma MulNonNegative(a: real, b: real)
    requires 0.0 <= a && 0.0 <= b
    ensures 0.0 <= a * b
  {
  }

  /** The accumulated height in whole-frame terms: 0.6 * k * (20 - k). */
  lemma {:induction false} ArcFrames(k: nat)
    ensures ArcOffset(k) == 0.6 * (k * (20 - k)) as real
  {
    if k > 0 {
      ArcFrames(k - 1);
      assert k * (20 - k) == (k - 1) * (21 - k) + (21 - 2 * k);
    }
  }

  /** The arc never dips below the take-off height and never rises above the jump height. */
  lemma ArcOffsetBounds(k: nat)
    requires k <= JumpDuration
    ensures 0.0 <= ArcOffset(k) <= JumpHeight
    ensures k == 0 || k == JumpDuration ==> ArcOffset(k) == 0.0
  {
    ArcFrames(k);
    var n := k * (20 - k);
    ProductNonNegative(k, 20 - k);
    assert 100 - n == (k - 10) * (k - 10);
    if k >= 10 {
      ProductNonNegative(k - 10, k - 10);
    } else {
      ProductNonNegative(10 - k, 10 - k);
      assert (10 - k) * (10 - k) == (k - 10) * (k - 10);
    }
  }

  /** The interpolated x lies between the start and the target. */
  lemma LerpBetween(a: real, b: real, k: nat)
    requires k <= JumpDuration
    ensures a <= b ==> a <= Lerp(a, b, k) <= b
    ensures b <= a ==> b <= Lerp(a, b, k) <= a
  {
    LerpClosedForm(a, b, k);
    var q := Progress(k);
    assert 0.0 <= q <= 1.0;
    if a <= b {
      MulNonNegative(b - a, q);
      MulNonNegative(b - a, 1.0 - q);
    } else {
      MulNonNegative(a - b, q);
      MulNonNegative(a - b, 1.0 - q);
    }
  }

  /**
   * Starts a jump towards the other wall, unless one is already under way.
   * The target is x = 290 from the left wall and x = 80 from the right wall.
   */
  function Jump(p: Player): (r: Player)
    ensures p.jumping ==> r == p
    ensures !p.jumping ==>
      && r.jumping && r.jumpProgress == 0
      && r.jumpStartX == p.x && r.jumpStartY == p.y
      && r.jumpTargetX == (if p.onLeftWall then 290.0 else 80.0)
      && r.x == p.x && r.y == p.y && r.onLeftWall == p.onLeftWall
      && r.speedBoost == p.speedBoost && r.invincible == p.invincible
  {
    if p.jumping then p
    else
      p.(jumping := true, jumpProgress := 0, jumpStartX := p.x, jumpStartY := p.y,
         jumpTargetX := WallX(!p.onLeftWall))
  }

  /**
   * One frame of the player: the effects tick first; then the player either
   * climbs or advances its jump. The jump ends when its progress k / 20
   * reaches 1, that is on its 20th frame.
   */
  function Update(p: Player): Player {
    var p1 := p.(speedBoost := Tick(p.speedBoost), invincible := Tick(p.invincible));
    if !p1.jumping then
      p1.(y := p1.y - (if p1.speedBoost.on then ClimbSpeed + ClimbSpeed else ClimbSpeed))
    else
      var k := p1.jumpProgress + 1;
      if k >= JumpDuration then
        p1.(x := p1.jumpTargetX, y := p1.jumpStartY, onLeftWall := !p1.onLeftWall,
            jumping := false, jumpProgress := 0)
      else
        p1.(jumpProgress := k, x := Lerp(p1.jumpStartX, p1.jumpTargetX, k),
            y := p1.jumpStartY - ArcOffset(k))
  }

  /** Each frame ticks both effects, and ticking is all that happens to them. */
  lemma UpdateTicksEffects(p: Player)
    ensures Update(p).speedBoost == Tick(p.speedBoost)
    ensures Update(p).invincible == Tick(p.invincible)
  {
  }

  /**
   * A player not jumping keeps its x and wall and climbs 2 units, or 4 when
   * the boost is still on after this frame's tick.
   */
  lemma UpdateClimbs(p: Player)
    requires !p.jumping
    ensures var r := Update(p);
      && r.x == p.x && r.y == p.y - (if r.speedBoost.on then 4.0 else 2.0)
      && !r.jumping && r.onLeftWall == p.onLeftWall
  {
  }

  /**
   * On the 20th frame of a jump the player lands exactly on the target, back
   * at the take-off y, on the other wall, with the jump state cleared.
   */
  lemma UpdateLands(p: Player)
    requires p.jumping && p.jumpProgress + 1 >= JumpDuration
    ensures var r := Update(p);
      && r.x == p.jumpTargetX && r.y == p.jumpStartY
      && r.onLeftWall == !p.onLeftWall && !r.jumping && r.jumpProgress == 0
  {
  }

  /**
   * Before the 20th frame a jump advances by one frame: x stays between the
   * take-off x and the target, y at most 60 above the take-off y, the wall
   * and the jump's endpoints unchanged.
   */
  lemma UpdateInFlight(p: Player)
    requires p.jumping && p.jumpProgress + 1 < JumpDuration
    ensures var r := Update(p);
      && r.jumping && r.jumpProgress == p.jumpProgress + 1 && r.onLeftWall == p.onLeftWall
      && r.jumpStartX == p.jumpStartX && r.jumpStartY == p.jumpStartY
      && r.jumpTargetX == p.jumpTargetX
      && (p.jumpStartX <= p.jumpTargetX ==> p.jumpStartX <= r.x <= p.jumpTargetX)
      && (p.jumpTargetX <= p.jumpStartX ==> p.jumpTargetX <= r.x <= p.jumpStartX)
      && p.jumpStartY - JumpHeight <= r.y <= p.jumpStartY
  {
    ArcOffsetBounds(p.jumpProgress + 1);
    LerpBetween(p.jumpStartX, p.jumpTargetX, p.jumpProgress + 1);
  }

  /** The player after n frames. */
  function Updates(p: Player, n: nat): Player {
    if n == 0 then p else Update(Updates(p, n - 1))
  }

  // ---------------------------------------------------------------------
  // Invariant
  // ---------------------------------------------------------------------

  /** An effect is on exactly while it has frames left, and never more than its full duration. */
  predicate EffectValid(e: Effect, frames: int) {
    0 <= e.timer <= frames && (e.on <==> e.timer > 0)
  }

  /**
   * What every reachable player satisfies: consistent effects; a standing
   * player is on its wall; a jumping player took off from its wall towards
   * the other one and sits on the arc for its progress.
   */
  predicate Valid(p: Player) {
    && EffectValid(p.speedBoost, SpeedBoostFrames)
    && EffectValid(p.invincible, InvincibleFrames)
    && (!p.jumping ==> p.jumpProgress == 0 && p.x == WallX(p.onLeftWall))
    && (p.jumping ==>
          && p.jumpProgress < JumpDuration
          && p.jumpStartX == WallX(p.onLeftWall)
          && p.jumpTargetX == WallX(!p.onLeftWall)
          && p.x == Lerp(p.jumpStartX, p.jumpTargetX, p.jumpProgress)
          && p.y == p.jumpStartY - ArcOffset(p.jumpProgress))
  }

  /** The player the game starts with, at (80, 600), is valid. */
  lemma NewIsValid()
    ensures Valid(New(80.0, 600.0))
  {
  }

  lemma ValidUnderUpdate(p: Player)
    requires Valid(p)
    ensures Valid(Update(p))
  {
  }

  lemma ValidUnderJump(p: Player)
    requires Valid(p)
    ensures Valid(Jump(p))
  {
  }

  lemma ValidUnderActivation(p: Player)
    requires Valid(p)
    ensures Valid(ActivateSpeedBoost(p)) && Valid(ActivateInvincibility(p))
  {
  }

  /** A valid player never leaves the strip between the two walls' inner edges. */
  lemma ValidBetweenWalls(p: Player)
    requires Valid(p)
    ensures 80.0 <= p.x <= 290.0
  {
    if p.jumping {
      LerpBetween(p.jumpStartX, p.jumpTargetX, p.jumpProgress);
    }
  }

  // ---------------------------------------------------------------------
  // Frame-count properties
  // ---------------------------------------------------------------------

  /** Over any number of frames, each effect evolves by its own ticks alone. */
  lemma {:induction false} UpdatesTickEffects(p: Player, k: nat)
    ensures Updates(p, k).speedBoost == Ticks(p.speedBoost, k)
    ensures Updates(p, k).invincible == Ticks(p.invincible, k)
  {
    if k > 0 {
      UpdatesTickEffects(p, k - 1);
    }
  }

  /** After activation the boost is on for frames 0..299 and switches off on exactly the 300th update. */
  lemma SpeedBoostLasts(p: Player, k: nat)
    ensures Updates(ActivateSpeedBoost(p), k).speedBoost ==
      if k < 300 then Effect(true, 300 - k) else Effect(false, 0)
  {
    var q := ActivateSpeedBoost(p);
    UpdatesTickEffects(q, k);
    CountdownExact(q.speedBoost, k);
  }

  /** After activation invincibility is on for frames 0..179 and switches off on exactly the 180th update. */
  lemma InvincibilityLasts(p: Player, k: nat)
    ensures Updates(ActivateInvincibility(p), k).invincible ==
      if k < 180 then Effect(true, 180 - k) else Effect(false, 0)
  {
    var q := ActivateInvincibility(p);
    UpdatesTickEffects(q, k);
    CountdownExact(q.invincible, k);
  }

  /** The jump state k frames (k < 20) after take-off: on the arc at progress k. */
  lemma {:induction false} JumpInFlight(p: Player, k: nat)
    requires !p.jumping && k < JumpDuration
    ensures var q := Updates(Jump(p), k);
      && q.jumping && q.jumpProgress == k && q.onLeftWall == p.onLeftWall
      && q.jumpStartX == p.x && q.jumpStartY == p.y && q.jumpTargetX == WallX(!p.onLeftWall)
      && q.x == Lerp(p.x, WallX(!p.onLeftWall), k)
      && q.y == p.y - ArcOffset(k)
  {
    if k > 0 {
      JumpInFlight(p, k - 1);
    }
  }

  /**
   * During frames 1..19 of a jump the player is between its take-off x and
   * the target, and at most 60 units above its take-off y.
   */
  lemma JumpArc(p: Player, k: nat)
    requires !p.jumping && 1 <= k < JumpDuration
    ensures var q := Updates(Jump(p), k); var t := WallX(!p.onLeftWall);
      && (p.x <= t ==> p.x <= q.x <= t)
      && (t <= p.x ==> t <= q.x <= p.x)
      && p.y - JumpHeight <= q.y <= p.y
  {
    JumpInFlight(p, k);
    LerpBetween(p.x, WallX(!p.onLeftWall), k);
    ArcOffsetBounds(k);
  }

  /**
   * A jump lands after exactly 20 frames: exactly on the other wall's target
   * (290 from the left wall, 80 from the right), back at the take-off y,
   * with the wall flipped and the jump state cleared.
   */
  lemma JumpLands(p: Player)
    requires !p.jumping
    ensures var q := Updates(Jump(p), JumpDuration);
      && q.x == (if p.onLeftWall then 290.0 else 80.0)
      && q.y == p.y
      && q.onLeftWall == !p.onLeftWall
      && !q.jumping && q.jumpProgress == 0
  {
    JumpInFlight(p, JumpDuration - 1);
  }
}

=== FILE: powerups.dfy ===
/**
 * Collectable power-ups: a cup of chiyaa (speed boost) and a prayer wheel
 * (invincibility). They do not move; they only bob up and down.
 */
module PowerUps {
  import opened Geometry

  datatype PowerUpKind = Chiyaa | PrayerWheel

  /** bob is the phase of the vertical bobbing, advanced every frame. */
  datatype PowerUp = PowerUp(kind: PowerUpKind, x: real, y: real, bob: real)

  const Size: real := 20.0
  /** Phase advance per frame. */
  const BobStep: real := 0.2

  /** One frame: only the bobbing phase moves on. */
  function Update(u: PowerUp): (r: PowerUp)
    ensures r.bob - u.bob == 0.2
    ensures r.kind == u.kind && r.x == u.x && r.y == u.y
  {
    u.(bob := u.bob + BobStep)
  }

  /** The power-up after n frames. */
  function Updates(u: PowerUp, n: nat): PowerUp {
    if n == 0 then u else Update(Updates(u, n - 1))
  }

  /** A power-up never moves: after n frames only its phase has advanced, by 0.2 per frame. */
  lemma {:induction false} UpdatesOnlyBob(u: PowerUp, n: nat)
    ensures Updates(u, n) == u.(bob := u.bob + 0.2 * n as real)
  {
    if n > 0 {
      UpdatesOnlyBob(u, n - 1);
    }
  }

  /**
   * The collision box, shifted vertically by the bobbing: 3 times the sine
   * of the phase. `sine` stands for the host's sine function.
   */
  function HitBox(u: PowerUp, sine: real -> real): Rect {
    Rect(u.x, u.y + sine(u.bob) * 3.0, Size, Size)
  }

  /** With a sine bounded by 1, the collision box is never more than 3 units off the base position. */
  lemma HitBoxNearBase(u: PowerUp, sine: real -> real)
    requires -1.0 <= sine(u.bob) <= 1.0
    ensures u.y - 3.0 <= HitBox(u, sine).y <= u.y + 3.0
    ensures HitBox(u, sine).x == u.x
  {
  }
}

=== FILE: session.dfy ===
/**
 * Properties of whole sessions: the invariant every reachable game state
 * keeps, how the spawn timers line up with the frame counter, input
 * handling, and the opening frames of a fresh game.
 */
module Session {
  import opened Geometry
  import Players
  import Enemies
  import PowerUps
  import opened Game

  /**
   * What holds of every state a session reaches: a valid player; a high
   * score at least the score; the score is the closed form of the frame
   * counter; the power-up timer is the frame counter modulo 601; the enemy
   * timer stays within the spawn rate and is 0 throughout the warm-up; and
   * every enemy keeps the bounce invariant.
   */
  predicate Inv(s: GameState) {
    && Players.Valid(s.player)
    && s.highscore >= s.score
    && s.score == ScoreAt(s.gameStartTimer)
    && s.powerupSpawnTimer == s.gameStartTimer % 601
    && s.spawnTimer <= 90
    && (s.gameStartTimer <= 120 ==> s.spawnTimer == 0)
    && (forall e :: e in s.enemies ==> Enemies.InBounds(e))
  }

  /** A fresh session, whatever high score it keeps, satisfies the invariant. */
  lemma FreshInv(h: nat)
    ensures Inv(Fresh(h))
  {
    Players.NewIsValid();
  }

  /** Restarting always yields a state satisfying the invariant, with the high score kept. */
  lemma RestartInv(s: GameState)
    ensures Inv(Restart(s)) && Restart(s).highscore == s.highscore
  {
    FreshInv(s.highscore);
  }

  /** Collection leaves a valid player valid: it only re-arms effects to their full duration. */
  lemma CollectKeepsValid(box: Rect, p: Players.Player, us: seq<PowerUps.PowerUp>, sine: real -> real)
    requires Players.Valid(p)
    ensures Players.Valid(Collect(box, p, us, sine).player)
  {
  }

  /** Stepping enemies that keep the bounce invariant yields enemies that keep it. */
  lemma AdvanceKeepsInBounds(es: seq<Enemies.Enemy>, bound: real)
    requires forall e :: e in es ==> Enemies.InBounds(e)
    ensures forall e :: e in Advance(es, Enemies.Update, EnemyY, bound) ==> Enemies.InBounds(e)
  {
    var stepped := StepAll(es, Enemies.Update);
    forall i | 0 <= i < |es| {
      Enemies.UpdateStaysInBounds(es[i]);
    }
    assert forall e :: e in stepped ==> Enemies.InBounds(e);
  }

  /** The enemy spawner only ever adds an enemy that keeps the bounce invariant. */
  lemma SpawnKeepsInBounds(t: nat, timer: nat, score: nat, cameraY: real,
                           es: seq<Enemies.Enemy>, d: Draws)
    requires ValidDraws(d)
    requires forall e :: e in es ==> Enemies.InBounds(e)
    ensures forall e :: e in EnemySpawn(t, timer, score, cameraY, es, d).items ==> Enemies.InBounds(e)
  {
    var r := EnemySpawn(t, timer, score, cameraY, es, d);
    assert r.items == r.items[..|es|] + r.items[|es|..];
  }

  /** The enemy pass of a frame, spawn included, keeps the bounce invariant. */
  lemma AdvancedEnemiesInBounds(s: GameState, d: Draws)
    requires ValidDraws(d)
    requires forall e :: e in s.enemies ==> Enemies.InBounds(e)
    ensures forall e :: e in Advanced(s, d).enemies ==> Enemies.InBounds(e)
  {
    var r := Advanced(s, d);
    forall e | e in r.enemies
      ensures Enemies.InBounds(e)
    {
      var stepped := StepAll(s.enemies, Enemies.Update);
      if e in stepped {
        var i :| 0 <= i < |stepped| && stepped[i] == e;
        Enemies.UpdateStaysInBounds(s.enemies[i]);
      } else {
        Enemies.UpdateStaysInBounds(SpawnEnemy(r.cameraY, d));
      }
    }
  }

  /** The advancing part of a frame keeps every part of the invariant but the enemies'. */
  lemma AdvancedCountersInv(s: GameState, d: Draws)
    requires Inv(s) && ValidDraws(d)
    ensures var r := Advanced(s, d);
      && Players.Valid(r.player)
      && r.highscore >= r.score
      && r.score == ScoreAt(r.gameStartTimer)
      && r.powerupSpawnTimer == r.gameStartTimer % 601
      && r.spawnTimer <= 90
      && (r.gameStartTimer <= 120 ==> r.spawnTimer == 0)
  {
    var r := Advanced(s, d);
    Players.ValidUnderUpdate(s.player);
    ScoreAtStep(s.gameStartTimer);
    ModuloStep(s.gameStartTimer);
  }

  /** The advancing part of a frame keeps the invariant. */
  lemma AdvancedInv(s: GameState, d: Draws)
    requires Inv(s) && ValidDraws(d)
    ensures Inv(Advanced(s, d))
  {
    AdvancedCountersInv(s, d);
    AdvancedEnemiesInBounds(s, d);
  }

  /** Counting modulo 601: the successor wraps to 0 exactly when it reaches 601. */
  lemma ModuloStep(t: nat)
    ensures (t + 1) % 601 == if t % 601 == 600 then 0 else t % 601 + 1
  {
  }

  /** The collision checks keep the invariant. */
  lemma CollisionsInv(m: GameState, sine: real -> real)
    requires Inv(m)
    ensures Inv(Collisions(m, sine))
  {
    CollectKeepsValid(Players.HitBox(m.player), m.player, m.powerups, sine);
  }

  /** Every frame keeps the invariant. */
  lemma UpdateInv(s: GameState, d: Draws, sine: real -> real)
    requires Inv(s) && ValidDraws(d)
    ensures Inv(Update(s, d, sine))
  {
    if !s.gameOver {
      AdvancedInv(s, d);
      CollisionsInv(Advanced(s, d), sine);
    }
  }

  /** A power-up spawns exactly on the frames whose number is a positive multiple of 601. */
  lemma PowerUpSpawnFrames(s: GameState, d: Draws)
    requires Inv(s) && ValidDraws(d)
    ensures var r := PowerUpSpawn(s.powerupSpawnTimer, s.cameraY, s.powerups, d);
      |r.items| == |s.powerups| + 1 <==> (s.gameStartTimer + 1) % 601 == 0
  {
    assert s.powerupSpawnTimer == s.gameStartTimer % 601;
    ModuloStep(s.gameStartTimer);
  }

  // ---------------------------------------------------------------------
  // Input
  // ---------------------------------------------------------------------

  lemma DispatchInv(s: GameState, e: Event)
    requires Inv(s)
    ensures Inv(Dispatch(s, e))
  {
    Players.ValidUnderJump(s.player);
    RestartInv(s);
  }

  /** Handling any sequence of events keeps the invariant. */
  lemma {:induction false} HandleEventsInv(s: GameState, events: seq<Event>)
    requires Inv(s)
    ensures Inv(HandleEvents(s, events).state)
    decreases |events|
  {
    if |events| > 0 && events[0] != Quit {
      DispatchInv(s, events[0]);
      HandleEventsInv(Dispatch(s, events[0]), events[1..]);
    }
  }

  /** Events after the first quit have no effect: the state is the one reached just before it. */
  lemma {:induction false} QuitStopsHandling(s: GameState, events: seq<Event>, i: nat)
    requires i < |events| && events[i] == Quit && Quit !in events[..i]
    ensures HandleEvents(s, events) == Handled(false, HandleEvents(s, events[..i]).state)
    decreases i
  {
    if i > 0 {
      assert events[0] == events[..i][0];
      assert events[0] != Quit;
      assert events[1..][..i - 1] == events[..i][1..];
      assert events[1..][i - 1] == events[i];
      QuitStopsHandling(Dispatch(s, events[0]), events[1..], i - 1);
    }
  }

  // ---------------------------------------------------------------------
  // Sessions over many frames
  // ---------------------------------------------------------------------

  /** s after n applications of f. */
  function Iterate<S>(f: S -> S, s: S, n: nat): S {
    if n == 0 then s else f(Iterate(f, s, n - 1))
  }

  /** A property that every application of f preserves holds after any number of them. */
  lemma {:induction false} IterateKeeps<S>(f: S -> S, P: S -> bool, s: S, n: nat)
    requires P(s)
    requires forall x :: P(x) ==> P(f(x))
    ensures P(Iterate(f, s, n))
  {
    if n > 0 {
      IterateKeeps(f, P, s, n - 1);
    }
  }

  /** A fixed point of f stays put however often f is applied. */
  lemma {:induction false} IterateFixed<S>(f: S -> S, s: S, n: nat)
    requires f(s) == s
    ensures Iterate(f, s, n) == s
  {
    if n > 0 {
      IterateFixed(f, s, n - 1);
    }
  }

  /** One frame with the given draws and sine, as a function of the state. */
  function Step(d: Draws, sine: real -> real): GameState -> GameState
    requires ValidDraws(d)
  {
    s => Update(s, d, sine)
  }

  /** The state after n frames with the same draws each frame. */
  function Frames(s: GameState, n: nat, d: Draws, sine: real -> real): GameState
    requires ValidDraws(d)
  {
    Iterate(Step(d, sine), s, n)
  }

  /** The invariant, and with it highscore >= score, holds after any number of frames. */
  lemma FramesInv(s: GameState, n: nat, d: Draws, sine: real -> real)
    requires Inv(s) && ValidDraws(d)
    ensures Inv(Frames(s, n, d, sine))
    ensures Frames(s, n, d, sine).highscore >= Frames(s, n, d, sine).score
  {
    var f := Step(d, sine);
    forall x | Inv(x)
      ensures Inv(f(x))
    {
      UpdateInv(x, d, sine);
    }
    IterateKeeps(f, Inv, s, n);
  }

  /** Once the game is over, no number of frames changes anything. */
  lemma GameOverFreezes(s: GameState, n: nat, d: Draws, sine: real -> real)
    requires s.gameOver && ValidDraws(d)
    ensures Frames(s, n, d, sine) == s
  {
    IterateFixed(Step(d, sine), s, n);
  }

  /** One pass of the main loop: the events gathered this frame and the draws its spawns would use. */
  datatype Pass = Pass(events: seq<Event>, draws: Draws)

  /** Every pass draws its random values from the ranges the game draws them from. */
  predicate ValidPasses(passes: seq<Pass>) {
    forall p :: p in passes ==> ValidDraws(p.draws)
  }

  /**
   * The main loop over a sequence of passes: each pass handles its events,
   * then runs one frame. A quit still lets that pass's frame run and then
   * ends the loop. The high score never goes down over a session.
   */
  function Play(s: GameState, passes: seq<Pass>, sine: real -> real): (r: GameState)
    requires ValidPasses(passes)
    ensures r.highscore >= s.highscore
    decreases |passes|
  {
    if |passes| == 0 then s
    else
      var h := HandleEvents(s, passes[0].events);
      var next := Update(h.state, passes[0].draws, sine);
      if h.running then Play(next, passes[1..], sine) else next
  }

  /** Dropping the head of a concatenation drops it from the first part. */
  lemma DropAppend<T>(a: seq<T>, b: seq<T>)
    requires |a| > 0
    ensures (a + b)[1..] == a[1..] + b
  {
  }

  /** A pass carrying a quit runs its frame and is the last one. */
  lemma PlayQuitPass(s: GameState, passes: seq<Pass>, sine: real -> real)
    requires ValidPasses(passes)
    requires |passes| > 0 && Quit in passes[0].events
    ensures Play(s, passes, sine) == Update(HandleEvents(s, passes[0].events).state, passes[0].draws, sine)
  {
  }

  /** A pass without a quit runs its frame and hands over to the next pass. */
  lemma PlayRunPass(s: GameState, passes: seq<Pass>, sine: real -> real)
    requires ValidPasses(passes)
    requires |passes| > 0 && Quit !in passes[0].events
    ensures Play(s, passes, sine) ==
      Play(Update(HandleEvents(s, passes[0].events).state, passes[0].draws, sine), passes[1..], sine)
  {
  }

  /**
   * A quit ends the loop after the frame of the pass that carried it:
   * whatever passes come after that one are never looked at.
   */
  lemma {:induction false} PlayEndsAtQuit(s: GameState, first: seq<Pass>, rest: seq<Pass>, sine: real -> real)
    requires ValidPasses(first) && ValidPasses(rest)
    requires |first| > 0 && Quit in first[|first| - 1].events
    ensures Play(s, first + rest, sine) == Play(s, first, sine)
    decreases |first|
  {
    var all := first + rest;
    assert all[0] == first[0];
    if Quit in first[0].events {
      PlayQuitPass(s, first, sine);
      PlayQuitPass(s, all, sine);
    } else {
      PlayRunPass(s, first, sine);
      PlayRunPass(s, all, sine);
      var next := Update(HandleEvents(s, first[0].events).state, first[0].draws, sine);
      DropAppend(first, rest);
      assert |first| > 1;
      assert first[1..][|first| - 2] == first[|first| - 1];
      assert ValidPasses(first[1..]);
      PlayEndsAtQuit(next, first[1..], rest, sine);
    }
  }

  /**
   * Passes without a quit run one after another: a session that starts with
   * them is those passes followed by the rest of the session.
   */
  lemma {:induction false} PlayConcat(s: GameState, first: seq<Pass>, rest: seq<Pass>, sine: real -> real)
    requires ValidPasses(first) && ValidPasses(rest)
    requires forall j :: 0 <= j < |first| ==> Quit !in first[j].events
    ensures Play(s, first + rest, sine) == Play(Play(s, first, sine), rest, sine)
    decreases |first|
  {
    if |first| == 0 {
      assert first + rest == rest;
    } else {
      var h := HandleEvents(s, first[0].events);
      var next := Update(h.state, first[0].draws, sine);
      assert (first + rest)[0] == first[0];
      DropAppend(first, rest);
      PlayConcat(next, first[1..], rest, sine);
      assert Play(s, first + rest, sine) == Play(next, first[1..] + rest, sine);
      assert Play(s, first, sine) == Play(next, first[1..], sine);
    }
  }

  /** The invariant holds through any session, whatever the input and the draws. */
  lemma {:induction false} PlayInv(s: GameState, passes: seq<Pass>, sine: real -> real)
    requires Inv(s)
    requires ValidPasses(passes)
    ensures Inv(Play(s, passes, sine))
    ensures Play(s, passes, sine).highscore >= Play(s, passes, sine).score
    decreases |passes|
  {
    if |passes| > 0 {
      var h := HandleEvents(s, passes[0].events);
      HandleEventsInv(s, passes[0].events);
      UpdateInv(h.state, passes[0].draws, sine);
      if h.running {
        PlayInv(Update(h.state, passes[0].draws, sine), passes[1..], sine);
      }
    }
  }

  /**
   * The state of a fresh session with high score h after n frames with no
   * input, for n up to 120: the player has climbed 2 units a frame up the
   * left wall, nothing has spawned, the score follows its closed form and
   * the game is running.
   */
  function Opening(h: nat, n: nat): GameState {
    var score := ScoreAt(n);
    GameState(Players.New(80.0, 600.0 - 2.0 * n as real), [], [], score,
              if h >= score then h else score,
              if n == 0 then 0.0 else 100.0 - 2.0 * n as real, 0, n, n, false)
  }

  /** One opening frame leads to the next. */
  lemma OpeningStep(h: nat, n: nat, d: Draws, sine: real -> real)
    requires n < 120 && ValidDraws(d)
    ensures Update(Opening(h, n), d, sine) == Opening(h, n + 1)
  {
    ScoreAtStep(n);
  }

  /**
   * The first 120 frames of a fresh session with no input: the player climbs
   * 2 units a frame up the left wall, nothing spawns, the score follows its
   * closed form and the game is not over.
   */
  lemma {:induction false} OpeningFrames(h: nat, n: nat, d: Draws, sine: real -> real)
    requires n <= 120 && ValidDraws(d)
    ensures Frames(Fresh(h), n, d, sine) == Opening(h, n)
  {
    if n > 0 {
      OpeningFrames(h, n - 1, d, sine);
      OpeningStep(h, n - 1, d, sine);
    }
  }

  /**
   * After 66 frames of a fresh game with no input the first point has just
   * been scored, the player has climbed 132 units, and the game is running.
   */
  lemma SixtySixFrames(d: Draws, sine: real -> real)
    requires ValidDraws(d)
    ensures var r := Frames(Init(), 66, d, sine);
      r.score == 1 && r.highscore == 1 && r.player.y == 468.0 && r.player.x == 80.0 && !r.gameOver
  {
    OpeningFrames(0, 66, d, sine);
  }
}
